=== FILE: README.md ===
# duecredit collector — a Dafny model

This project models the citation bookkeeping of duecredit's `DueCreditCollector`
(`duecredit/collector.py`): the registry that maps entry keys to entries, the
`Citation` objects that count how often each entry was cited, the `dcite`
decorator that cites once per call of a wrapped function, the `load` dispatch,
`__str__`, and the sink-name factory of `CollectorGrave`.

Modules, one concept each:

- `Entries` (entries.dfy): an entry is a value carrying its key (what `get_key()`
  returns) and opaque content; `cite`'s first argument is `NewEntry(entry)` or
  `ByKey(key)`.
- `Registry` (registry.dfy): the two dictionaries as values (`State`), with
  `AddTo` (`add`) and `Cite` (`cite`) as functions. All properties of the
  bookkeeping are proved here: last-added wins, lookup failure, lazy creation
  with count 0 then +1, first citation's `use`/`level` win, counts only grow,
  and the invariant that every citation key is an entry key.
- `Collector` (collector.dfy): the objects. `DueCreditCollector` has the two
  dictionaries as fields that `Add` and `Cite` update in place; `Citation` has a
  mutable `count`. The postconditions of `Add`, `Cite`, `CountUse` and
  `CiteWrapper.Call` tie the new state to the Registry function applied to
  the old state (`Lookup` and `Increment`, the two steps of `CountUse`, state
  theirs as map updates), and add what only objects have:
  `Cite` returns the very Citation object stored under the key, the same one on
  every later call, and neither `Cite` nor a wrapped call (`CiteWrapper.Call`)
  ever replaces a stored Citation object; a failed call changes nothing. `DciteArgs` holds the arguments `dcite` captured, whose
  `level` keyword is written once, at the first decoration; `CiteWrapper.Call`
  cites once, then returns the wrapped function's result.
- `Grave` (grave.dfy): `CollectorGrave`'s parsing of the DUECREDIT_OUTPUTS
  setting into handler tags.
- `Text` (text.dfy): Python's `split(',')`, `lower()`, `strip()`, `endswith()`
  and decimal formatting, with the properties the model relies on.
- `Wrappers`, `Errors`: `Option`/`Result`/`Outcome`, and the Python exceptions
  raised (`KeyError`, `NotImplementedError`, `ValueError`) as values.

Behaviour worth knowing, modelled as the code has it:

- A `dcite` decorator writes the deduced level into its captured keyword
  arguments (collector.py:99-101). A second function decorated by the same
  decorator object therefore keeps the first function's level
  (`Collector.FirstDecorationWins`). Passing `level=None` explicitly counts as
  given, so no level is deduced.
- `cite` given a new entry object for a key that already has a citation
  replaces the stored entry, but the citation keeps its original entry, `use`
  and `level` (`Registry.CiteEffect`).
- `CollectorGrave` records `fn or '.duecredit.p'`. The pickle handler, though,
  receives `fn` exactly as given (collector.py:134 vs 137). The model follows
  the code: `PickleOutput` carries the raw `fn`.
- A setting segment is dropped only when it is empty before stripping. A
  whitespace-only segment is kept, normalises to "", and raises
  (`Grave.BlankSegmentRaises`).

## Model

| member | source | states |
|---|---|---|
| `Registry.EmptyInv` | duecredit/collector.py:18-20 | a collector built without arguments has empty dictionaries and satisfies the registry invariant |
| `Collector.DueCreditCollector.constructor` | duecredit/collector.py:18-20 | the new collector is valid and both dictionaries are empty |
| `Registry.AddTo` | duecredit/collector.py:22-29 | `add` never removes a key and keeps every entry stored under its own key |
| `Registry.AddAllFrom` | duecredit/collector.py:24-26 | the loop over a list keeps every existing key and keeps entries under their own keys |
| `Registry.AddSingle` | duecredit/collector.py:27-29 | adding one entry stores it under its key (overwriting) and leaves every other key as it was |
| `Registry.AddToIsStoreEach` | duecredit/collector.py:22-29 | adding a possibly nested list equals storing its flattened entries one by one, left to right |
| `Registry.AddAllFromIsStoreEach` | duecredit/collector.py:24-26 | the list loop equals storing the flattened entries of its items in order |
| `Registry.StoreEachAppend` | duecredit/collector.py:24-26 | storing `xs + ys` is storing `xs` then `ys` |
| `Registry.StoreEachLastWins` | duecredit/collector.py:24-29 | after storing a list, a key is present iff it was present or some entry has it; the last entry with that key wins; keys no entry has keep their old value |
| `Registry.StoreEachKeys` | duecredit/collector.py:24-29 | after storing a list, a key is present iff it was present before or some entry in the list has it |
| `Registry.StoreEachLast` | duecredit/collector.py:24-29 | the last entry of a list carrying a key is the one stored under it |
| `Registry.StoreEachUntouched` | duecredit/collector.py:24-29 | a key no entry of the list carries keeps its old entry |
| `Registry.AddPreservesInv` | duecredit/collector.py:22-29 | `add` preserves the registry invariant (every citation key is an entry key) |
| `Collector.DueCreditCollector.Add` | duecredit/collector.py:22-29 | updates `_entries` in place exactly as `AddTo`, looping over list items in order; leaves the citations and the invariant intact |
| `Collector.DueCreditCollector.Load` | duecredit/collector.py:31-47 | a string ending in ".bib" is accepted; any other string raises NotImplementedError("Format not yet supported"); a non-string raises ValueError("Must be a string"); no state is touched |
| `Collector.LoadAcceptsBib` | duecredit/collector.py:38-40 | every path of the form `p + ".bib"` is accepted, and a non-string never is |
| `Registry.Resolve` | duecredit/collector.py:65-71 | an entry object resolves to itself; a bare key fails with KeyError exactly when it is not registered; in a well-keyed registry the resolved entry has the designated key |
| `Registry.Cite` | duecredit/collector.py:57-79 | `cite` fails exactly on an unregistered bare key, and then with KeyError of that key |
| `Registry.Counted` | duecredit/collector.py:73-76 | the citation under the entry's key is the stored one counted once more, or a new one for this entry, use and level with count 1; every other key keeps its citation |
| `Registry.CountedSteps` | duecredit/collector.py:73-76 | storing the found-or-created citation and then storing it counted once more is `Counted` |
| `Registry.CountedInv` | duecredit/collector.py:73-76 | counting a registered entry keeps the registry invariant |
| `Registry.CiteEffect` | duecredit/collector.py:65-79 | a successful `cite` registers an entry object, creates the citation with the call's use/level when absent or keeps its entry/use/level when present, adds exactly one to its count, leaves other citations alone, and preserves the invariant |
| `Registry.CiteUnknownKey` | duecredit/collector.py:69-70 | citing an unregistered bare key raises KeyError and produces no new state |
| `Registry.CiteMonotone` | duecredit/collector.py:75-76 | no count ever decreases across a `cite` |
| `Registry.RunCounts` | duecredit/collector.py:73-79 | a sequence of calls for one key succeeds once the key resolves; the count rises by the number of calls; use and level are the first call's when these calls created the citation, and unchanged when it existed; other citations are untouched |
| `Registry.RepeatedCiteCount` | duecredit/collector.py:73-79 | n identical cites raise the count by n; a never-cited key ends with count n |
| `Collector.Citation.constructor` | duecredit/collector.py:161-165 | a new Citation holds the given entry, use and level, with count 0 |
| `Collector.DueCreditCollector.Cite` | duecredit/collector.py:57-79 | changes the dictionaries as `Registry.Cite`; on KeyError changes nothing; otherwise the citation dictionary changes only at the entry's key, which now holds the returned Citation — the previous object when one existed, a fresh one otherwise; already stored Citation objects stay under their keys |
| `Collector.DueCreditCollector.CountUse` | duecredit/collector.py:73-76 | changes the citations as `Registry.Counted`; the dictionary maps the key to the returned object, the previous one when it existed, a fresh one otherwise; no object is stored under two keys |
| `Collector.DueCreditCollector.Lookup` | duecredit/collector.py:73-75 | stores a fresh Citation with count 0 under the key when there is none, and returns the object stored under the key; no existing Citation changes |
| `Collector.DueCreditCollector.Increment` | duecredit/collector.py:76 | raises the count of the citation under the key by one; the dictionaries and every other citation stay as they were |
| `Collector.DciteArgs.constructor` | duecredit/collector.py:81-97 | the captured collector, entry reference, use and level keyword are the ones given to `dcite` |
| `Collector.DciteArgs.CiteLevel` | duecredit/collector.py:104-105 | `cite` receives the captured level when the keyword is present (None included) and its default None when absent |
| `Collector.FuncLevel` | duecredit/collector.py:101 | the deduced level is "func " followed by the function's module, a dot and the function's name |
| `Collector.DueCreditCollector.Dcite` | duecredit/collector.py:81-97 | `dcite` captures the cite arguments (level possibly absent) for this collector |
| `Collector.Decorated` | duecredit/collector.py:99-101 | after decoration the level keyword is present; a given level is kept; an absent one becomes "func <module>.<name>" |
| `Collector.FirstDecorationWins` | duecredit/collector.py:98-101 | decorating a second function with the same decorator keeps the first function's level |
| `Collector.DciteArgs.Decorate` | duecredit/collector.py:98-107 | writes the deduced level into the captured keywords only when absent, so later cites use the given level or "func <module>.<name>"; returns a fresh wrapper around the function |
| `Collector.CiteWrapper.constructor` | duecredit/collector.py:103-107 | the wrapper holds the decorator's captured arguments (shared, not copied) and the wrapped function |
| `Collector.CiteWrapper.Call` | duecredit/collector.py:103-106 | each call performs exactly one `cite` with the captured arguments, then returns the wrapped function's result unchanged; if `cite` raises, the function is not called and the collector is unchanged; stored Citation objects stay the same objects under their keys, the cited key is the only one added, and the Citation a key's first call creates is a new object |
| `Collector.DueCreditCollector.ToString` | duecredit/collector.py:123-126 | `str(collector)` is the summary of the two dictionary sizes; it starts with "DueCreditCollector " and ends with " citations"; only the collector's own sizes produce that text |
| `Collector.Summary` | duecredit/collector.py:124-126 | the text starts with the class name and a space and ends with " citations" |
| `Collector.SummaryParses` | duecredit/collector.py:124-126 | the only sizes whose summary is that of `a` and `b` are `a` and `b` |
| `Collector.SummaryDeterminesSizes` | duecredit/collector.py:123-126 | `str(collector)` reports both dictionary sizes: different sizes never give the same text |
| `Collector.DigitsPrefix` | duecredit/collector.py:124-126 | the decimal count in the summary is delimited by the following text |
| `Text.DecimalRoundTrip` | duecredit/collector.py:125-126 | the decimal rendering of a size reads back as that size |
| `Text.Decimal` | duecredit/collector.py:125-126 | the rendering is a non-empty string of digits without a leading zero |
| `Grave.GetOutputHandler` | duecredit/collector.py:142-150 | "stdout" gives a text handler on stdout, "stderr" one on stderr, "pickle" a pickle handler with the given fn; any other name raises NotImplementedError |
| `Text.Split` | duecredit/collector.py:138-139 | the setting is cut into at least one comma-free piece, and joining the pieces with commas gives it back |
| `Text.SplitJoin` | duecredit/collector.py:138-139 | splitting is the inverse of joining comma-free pieces |
| `Text.Lower` | duecredit/collector.py:137 | each character is lower-cased in place; the result has the same length and no upper-case ASCII letter |
| `Text.LowerUnchanged` | duecredit/collector.py:137 | a string without upper-case letters is its own lower-case form |
| `Text.Strip` | duecredit/collector.py:137 | the result is the slice of the input that starts after its leading whitespace (fully characterised by `Text.StripShape`) |
| `Text.StripUnchanged` | duecredit/collector.py:137 | a string that neither starts nor ends with whitespace is its own stripped form |
| `Text.EndsWith` | duecredit/collector.py:39 | a string ending with a suffix is its prefix followed by that suffix |
| `Text.StripShape` | duecredit/collector.py:137 | `strip()` keeps a slice with only whitespace cut on either side, not starting or ending in whitespace, empty exactly for all-whitespace input |
| `Grave.Normalize` | duecredit/collector.py:137 | the name read from a segment is the segment lower-cased, then stripped; it has no upper-case ASCII letter and no surrounding whitespace, is no longer than the segment, and is empty exactly when the segment is all whitespace |
| `Grave.NormalizeUnchanged` | duecredit/collector.py:137 | a name without upper-case letters or whitespace (such as "stdout") reads as itself |
| `Grave.NonEmpty` | duecredit/collector.py:140 | every kept segment is a non-empty one of the input, every non-empty segment is kept, and a single segment is kept exactly when it is non-empty |
| `Grave.NonEmptyAppend` | duecredit/collector.py:136-140 | the kept segments of `a + b` are those of `a` followed by those of `b`: order and repetitions are preserved |
| `Grave.SinkNames` | duecredit/collector.py:136-140 | one sink name per kept segment: the j-th name is the j-th kept segment lower-cased and stripped |
| `Grave.SinkNamesValid` | duecredit/collector.py:136-140 | every kept name is a sink name iff every segment is empty or normalises to a sink name |
| `Grave.OutputHandlers` | duecredit/collector.py:136-140 | the comprehension succeeds iff every segment is empty or normalises to a sink name, then gives one handler per non-empty segment in order, the j-th being the handler for the j-th kept segment's name; otherwise NotImplementedError |
| `Grave.MakeHandlers` | duecredit/collector.py:136-140 | the handlers are built iff every kept, normalised name is a sink name, one per name and in order; otherwise NotImplementedError |
| `Grave.NewGrave` | duecredit/collector.py:132-140 | the grave is built iff the handlers are; it records the collector, `fn or '.duecredit.p'`, and exactly the handlers the comprehension built |
| `Grave.SettingParse` | duecredit/collector.py:132-140 | for any setting: it is cut at every comma into comma-free pieces that join back to it; the grave is built iff each piece is empty or names a sink once lower-cased and stripped; its handlers are then those of the non-empty pieces, one each and in order; otherwise NotImplementedError |
| `Grave.UnsetMeansStdout` | duecredit/collector.py:138-139 | with the variable unset the only handler is a text output on stdout |
| `Grave.BlankSegmentRaises` | duecredit/collector.py:136-140 | a non-empty whitespace-only segment raises NotImplementedError |

## Left out

- Exporting at teardown (`CollectorGrave.__del__`, collector.py:152-154) and the `TextOutput`/`PickleOutput` writers: finalizer-timed stream and file I/O in the io module, which is not part of this model. Handlers are tags.
- Reading `os.environ` and `getattr(sys, ...)`: the DUECREDIT_OUTPUTS setting is an input (`None` when unset) and the streams are the tags `Stdout`/`Stderr`.
- `_load_bib` (collector.py:46-47): it only logs; `load` of a ".bib" path is modelled as returning normally.
- `__repr__` of the collector and of `Citation`, and the exact formatting of entries: the entries module is not part of this model. `__str__` is modelled as text, with the property that it determines both sizes.
- `DueCreditCollector(entries=..., citations=...)` with caller-supplied dictionaries: the model starts from the default empty collector, where the registry invariant holds; dictionaries shared with the caller (aliasing) are not modelled.
- `DueCreditEntry` internals and `get_key`: an entry is a value that carries its key; whether two entry objects compare equal beyond that is not modelled.
- `functools.wraps` metadata copying and `*args`/`**kwargs` plumbing: the captured arguments are explicit `ref`, `use` and `level`; a level passed positionally to `dcite` (which would then also be added as a keyword and make the call raise TypeError) is not modelled. The wrapped function is a pure function of one argument, so an exception raised by it is not modelled.
- Text.Lower: lowers ASCII letters only; Python's full Unicode case mapping (e.g. KELVIN SIGN to "k") is not modelled.
- Grave.Normalize: built on `Text.Lower`, so it lower-cases ASCII letters only; a non-ASCII upper-case letter is kept as it is.
- Concurrency: the source has no locking, and the model is sequential.
- The `InactiveDueCreditCollector` stub: defined outside this file.

=== FILE: collector.dfy ===
/**
 * The collector as the objects it is: a `DueCreditCollector` whose two
 * dictionaries `add` and `cite` update in place, `Citation` objects whose
 * count `cite` increments, and the `dcite` decorator whose captured keyword
 * arguments are written at decoration time. Each state-changing method is
 * proved to follow the value model in module Registry.
 */
module Collector {
  import opened Wrappers
  import opened Errors
  import opened Entries
  import opened Registry
  import Text

  /** A record that an entry was used, with its usage counter. */
  class Citation {
    const entry: Entry
    const use: Option<string>
    const level: Option<string>
    var count: nat

    constructor (entry: Entry, use: Option<string>, level: Option<string>)
      ensures this.entry == entry && this.use == use && this.level == level
      ensures count == 0
    {
      this.entry := entry;
      this.use := use;
      this.level := level;
      count := 0;
    }

    /** The citation's current contents as a value. */
    function AsRecord(): Record
      reads this
    {
      Record(entry, use, level, count)
    }
  }

  /** No Citation object is stored under two keys. */
  ghost predicate Distinct(citations: map<Key, Citation>)
  {
    forall k1, k2 | k1 in citations && k2 in citations && k1 != k2 :: citations[k1] != citations[k2]
  }

  /** What `load` is given: a string, or anything else. */
  datatype Source = Str(value: string) | NotAString

  class DueCreditCollector {
    var entries: map<Key, Entry>
    var citations: map<Key, Citation>

    /** Both dictionaries as values, citations read through their objects. */
    ghost function View(): State
      reads this, citations.Values
    {
      State(entries, map k | k in citations :: citations[k].AsRecord())
    }

    /** The registry invariant, and one distinct Citation object per key. */
    ghost predicate Valid()
      reads this, citations.Values
    {
      && Inv(View())
      && Distinct(citations)
    }

    /** `DueCreditCollector()`: both dictionaries empty. */
    constructor ()
      ensures Valid() && View() == Empty
    {
      entries := map[];
      citations := map[];
    }

    /** `add(a)`: store each entry under its key, in order; the citations stay as they are. */
    method Add(a: Addable)
      requires Valid()
      modifies this
      ensures Valid()
      ensures entries == AddTo(old(entries), a)
      ensures citations == old(citations) && View().citations == old(View().citations)
      decreases a
    {
      match a
      case Single(e) =>
        entries := entries[e.key := e];
      case List(items) =>
        var i := 0;
        while i < |items|
          invariant 0 <= i <= |items|
          invariant Valid()
          invariant AddAllFrom(entries, items[i..]) == AddAllFrom(old(entries), items)
          invariant citations == old(citations) && View().citations == old(View().citations)
        {
          assert items[i..][1..] == items[i + 1..];
          Add(items[i]);
          i := i + 1;
        }
    }

    /**
     * `load(src)`: a string ending in ".bib" is handed to the BibTeX loader;
     * any other string raises NotImplementedError; anything that is not a
     * string raises ValueError. Being a function, it touches neither dictionary.
     */
    function Load(src: Source): (r: Outcome<Error>)
      ensures r.Pass? <==> src.Str? && Text.EndsWith(src.value, ".bib")
      ensures src.Str? && r.Fail? ==> r.error == NotImplementedError("Format not yet supported")
      ensures src.NotAString? ==> r == Fail(ValueError("Must be a string"))
    {
      match src
      case Str(path) =>
        if Text.EndsWith(path, ".bib") then Pass  // `_load_bib` only logs
        else Fail(NotImplementedError("Format not yet supported"))
      case NotAString => Fail(ValueError("Must be a string"))
    }

    /**
     * `cite(ref, use, level)`. The dictionaries change as Registry.Cite says;
     * an unknown bare key raises KeyError and changes nothing; otherwise the
     * Citation returned is the one now stored under the entry's key: the same
     * object as before when one existed, a fresh one otherwise. Citation
     * objects already stored stay stored under their keys.
     */
    method Cite(ref: EntryRef, use: Option<string>, level: Option<string>) returns (r: Result<Citation, Error>)
      requires Valid()
      modifies this, citations.Values
      ensures Valid()
      ensures Registry.Cite(old(View()), Call(ref, use, level))
              == if r.Success? then Success(View()) else Failure(r.error)
      ensures r.Failure? ==> View() == old(View()) && citations == old(citations)
      ensures r.Success? ==> citations == old(citations)[RefKey(ref) := r.value]
      ensures r.Success? && RefKey(ref) in old(citations) ==> r.value == old(citations[RefKey(ref)])
      ensures r.Success? && RefKey(ref) !in old(citations) ==> fresh(r.value)
      ensures forall k | k in old(citations) :: k in citations && citations[k] == old(citations[k])
    {
      ghost var s0 := View();
      var entry: Entry;
      match ref {
        case NewEntry(e) =>
          Add(Single(e));
          entry := e;
        case ByKey(k) =>
          if k !in entries {
            return Failure(KeyError(k));
          }
          entry := entries[k];
      }
      ghost var s1 := View();
      assert Inv(s1) && entry.key in s1.entries && s1.entries[entry.key] == entry;
      var citation := CountUse(entry, use, level);
      CountedInv(s1, entry, use, level);
      r := Success(citation);
      CiteEffect(s0, Call(ref, use, level));
    }

    /**
     * The second half of `cite`, for an entry already stored under its key:
     * create the citation with count 0 if there is none, then count it once.
     */
    method CountUse(entry: Entry, use: Option<string>, level: Option<string>) returns (citation: Citation)
      requires Distinct(citations)
      modifies this`citations, citations.Values
      ensures Distinct(citations) && entries == old(entries)
      ensures View() == State(old(entries), Counted(old(View().citations), entry, use, level))
      ensures citations == old(citations)[entry.key := citation]
      ensures entry.key in old(citations) ==> citation == old(citations[entry.key])
      ensures entry.key !in old(citations) ==> fresh(citation)
    {
      var k := entry.key;
      ghost var s0 := View();
      ghost var r0 := if k in s0.citations then s0.citations[k] else Record(entry, use, level, 0);
      ghost var r1 := r0.(count := r0.count + 1);
      citation := Lookup(entry, use, level);
      assert View().citations == s0.citations[k := r0];
      Increment(k);
      assert View().citations == s0.citations[k := r0][k := r1];
      CountedSteps(s0.citations, entry, use, level);
    }

    /**
     * The citation stored under a registered entry's key, created with count
     * 0 and stored when there is none; no Citation object changes.
     */
    method Lookup(entry: Entry, use: Option<string>, level: Option<string>) returns (citation: Citation)
      requires Distinct(citations)
      modifies this`citations
      ensures entries == old(entries) && Distinct(citations)
      ensures citations == old(citations)[entry.key := citation]
      ensures entry.key in old(citations) ==> citation == old(citations[entry.key])
      ensures entry.key !in old(citations) ==> fresh(citation)
      ensures var cs := old(View().citations);
        View().citations == cs[entry.key := if entry.key in cs then cs[entry.key] else Record(entry, use, level, 0)]
    {
      if entry.key !in citations {
        citation := new Citation(entry, use, level);
        citations := citations[entry.key := citation];
      } else {
        citation := citations[entry.key];
      }
    }

    /** `citation.count += 1` on the citation stored under `key`; every other citation is unchanged. */
    method Increment(key: Key)
      requires key in citations && Distinct(citations)
      modifies citations[key]
      ensures citations == old(citations) && entries == old(entries)
      ensures var cs := old(View().citations);
        View().citations == cs[key := cs[key].(count := cs[key].count + 1)]
    {
      var citation := citations[key];
      ghost var cits := citations;
      citation.count := citation.count + 1;
      forall j | j in cits && j != key
        ensures cits[j].count == old(cits[j].count)
      {
        assert cits[j] != citation;
      }
    }

    /**
     * `dcite(ref, use, level)`: capture the arguments of `cite` for a
     * decorator; `level` may be missing from the keyword arguments.
     */
    method Dcite(ref: EntryRef, use: Option<string>, level: LevelArg) returns (d: DciteArgs)
      ensures fresh(d)
      ensures d.collector == this && d.ref == ref && d.use == use && d.level == level
    {
      d := new DciteArgs(this, ref, use, level);
    }

    /**
     * `str(collector)`: the class name, then the two dictionary sizes; the
     * text determines both sizes.
     */
    function ToString(): (r: string)
      reads this
      ensures r == Summary(|entries|, |citations|)
      ensures |r| > 19 && r[..19] == "DueCreditCollector " && Text.EndsWith(r, " citations")
      ensures forall a: nat, b: nat | Summary(a, b) == r :: a == |entries| && b == |citations|
    {
      SummaryParses(|entries|, |citations|);
      Summary(|entries|, |citations|)
    }
  }

  /** The `level` keyword argument of `dcite`: absent, or given (possibly as None). */
  datatype LevelArg = Unset | Given(level: Option<string>)

  /** A Python function: where it is defined, its name, and what it computes. */
  datatype Func<-A, B> = Func(moduleName: string, name: string, body: A -> B)

  /** The level `dcite` deduces for a function: "func <module>.<name>". */
  function FuncLevel<A, B>(f: Func<A, B>): (r: string)
    ensures |r| == 6 + |f.moduleName| + |f.name|
    ensures r[..5] == "func " && r[5..5 + |f.moduleName|] == f.moduleName
    ensures Text.EndsWith(r, "." + f.name)
  {
    "func " + f.moduleName + "." + f.name
  }

  /** The `level` keyword argument after decorating `f`: filled in only when it was absent. */
  function Decorated<A, B>(level: LevelArg, f: Func<A, B>): (r: LevelArg)
    ensures r.Given?
    ensures level.Given? ==> r == level
    ensures level.Unset? ==> r.level == Some(FuncLevel(f))
  {
    if level.Unset? then Given(Some(FuncLevel(f))) else level
  }

  /**
   * The level is fixed by the first function decorated: applying the same
   * decorator to a second function keeps the first function's level.
   */
  lemma FirstDecorationWins<A, B>(f: Func<A, B>, g: Func<A, B>)
    ensures Decorated(Decorated(Unset, f), g) == Given(Some(FuncLevel(f)))
    ensures FuncLevel(f) != FuncLevel(g) ==> Decorated(Decorated(Unset, f), g) != Decorated(Unset, g)
  {
  }

  /** The arguments `dcite` captured; `level` is the mutable keyword entry. */
  class DciteArgs {
    const collector: DueCreditCollector
    const ref: EntryRef
    const use: Option<string>
    var level: LevelArg

    constructor (collector: DueCreditCollector, ref: EntryRef, use: Option<string>, level: LevelArg)
      ensures this.collector == collector && this.ref == ref && this.use == use && this.level == level
    {
      this.collector := collector;
      this.ref := ref;
      this.use := use;
      this.level := level;
    }

    /** The level `cite` receives: the captured keyword, or cite's default None. */
    function CiteLevel(): (r: Option<string>)
      reads this
      ensures level.Given? ==> r == level.level
      ensures level.Unset? ==> r.None?
    {
      if level.Given? then level.level else None
    }

    /**
     * `func_wrapper(f)`: deduce the level from `f` if none is captured yet
     * (writing it into the captured keywords), and wrap `f`.
     */
    method Decorate<A, B>(f: Func<A, B>) returns (w: CiteWrapper<A, B>)
      modifies this
      ensures level == Decorated(old(level), f)
      ensures CiteLevel() == if old(level).Given? then old(level).level else Some(FuncLevel(f))
      ensures fresh(w) && w.args == this && w.func == f
    {
      if level.Unset? {
        level := Given(Some(FuncLevel(f)));
      }
      w := new CiteWrapper(this, f);
    }
  }

  /** `cite_wrapper`: a decorated function. */
  class CiteWrapper<A, B> {
    const args: DciteArgs
    const func: Func<A, B>

    constructor (args: DciteArgs, func: Func<A, B>)
      ensures this.args == args && this.func == func
    {
      this.args := args;
      this.func := func;
    }

    /**
     * One call of the decorated function: exactly one `cite` with the
     * captured arguments, then the original function's result unchanged.
     * When `cite` raises, the function is not called and the collector is
     * as it was; either way every Citation object already stored stays
     * stored under its key, so a Citation an earlier `cite` returned is the
     * one this call counts.
     */
    method Call(x: A) returns (r: Result<B, Error>)
      requires args.collector.Valid()
      modifies args.collector, args.collector.citations.Values
      ensures args.collector.Valid()
      ensures Registry.Cite(old(args.collector.View()), Registry.Call(args.ref, args.use, args.CiteLevel()))
              == if r.Success? then Success(args.collector.View()) else Failure(r.error)
      ensures r.Success? ==> r.value == func.body(x)
      ensures r.Failure? ==> args.collector.View() == old(args.collector.View())
                             && args.collector.citations == old(args.collector.citations)
      ensures forall k | k in old(args.collector.citations) ::
        k in args.collector.citations && args.collector.citations[k] == old(args.collector.citations[k])
      ensures r.Success? ==> args.collector.citations.Keys == old(args.collector.citations).Keys + {RefKey(args.ref)}
      ensures r.Success? && RefKey(args.ref) !in old(args.collector.citations) ==>
        RefKey(args.ref) in args.collector.citations && fresh(args.collector.citations[RefKey(args.ref)])
    {
      var c := args.collector.Cite(args.ref, args.use, args.CiteLevel());
      if c.Failure? {
        return Failure(c.error);
      }
      r := Success(func.body(x));
    }
  }

  /** The text of `str(collector)` for the two dictionary sizes. */
  function Summary(entryCount: nat, citationCount: nat): (r: string)
    ensures |r| > 19 && r[..19] == "DueCreditCollector " && Text.EndsWith(r, " citations")
  {
    "DueCreditCollector " + (Text.Decimal(entryCount) + (" entries, " + (Text.Decimal(citationCount) + " citations")))
  }

  /** Only the sizes `a` and `b` give the summary of `a` and `b`. */
  lemma SummaryParses(a: nat, b: nat)
    ensures forall c: nat, d: nat | Summary(c, d) == Summary(a, b) :: c == a && d == b
  {
    forall c: nat, d: nat | Summary(c, d) == Summary(a, b) ensures c == a && d == b {
      SummaryDeterminesSizes(c, d, a, b);
    }
  }

  /** The summary reports both sizes: different sizes never give the same text. */
  lemma SummaryDeterminesSizes(a: nat, b: nat, c: nat, d: nat)
    requires Summary(a, b) == Summary(c, d)
    ensures a == c && b == d
  {
    var x, y, u, v := Text.Decimal(a), Text.Decimal(c), Text.Decimal(b), Text.Decimal(d);
    var tx, ty := " entries, " + (u + " citations"), " entries, " + (v + " citations");
    DropPrefix("DueCreditCollector ", x + tx, y + ty);
    DigitsPrefix(x, tx, y, ty);
    DropPrefix(" entries, ", u + " citations", v + " citations");
    DigitsPrefix(u, " citations", v, " citations");
    Text.DecimalRoundTrip(a);
    Text.DecimalRoundTrip(b);
    Text.DecimalRoundTrip(c);
    Text.DecimalRoundTrip(d);
  }

  lemma DropPrefix(p: string, u: string, v: string)
    requires p + u == p + v
    ensures u == v
  {
    assert (p + u)[|p|..] == u;
    assert (p + v)[|p|..] == v;
  }

  /** Two digit strings each followed by a non-digit: equal concatenations mean equal digit strings. */
  lemma DigitsPrefix(x: string, tx: string, y: string, ty: string)
    requires forall i | 0 <= i < |x| :: Text.IsDigit(x[i])
    requires forall i | 0 <= i < |y| :: Text.IsDigit(y[i])
    requires |tx| > 0 && !Text.IsDigit(tx[0]) && |ty| > 0 && !Text.IsDigit(ty[0])
    requires x + tx == y + ty
    ensures x == y && tx == ty
  {
    if |x| < |y| {
      DigitInPrefix(y, ty, |x|);
      assert false;
    } else if |y| < |x| {
      DigitInPrefix(x, tx, |y|);
      assert false;
    }
    assert (x + tx)[..|x|] == x && (y + ty)[..|y|] == y;
    assert (x + tx)[|x|..] == tx && (y + ty)[|y|..] == ty;
  }

  lemma DigitInPrefix(x: string, t: string, i: nat)
    requires forall j | 0 <= j < |x| :: Text.IsDigit(x[j])
    requires i < |x|
    ensures Text.IsDigit((x + t)[i])
  {
  }

  /** Every path ending in ".bib" is accepted by `load`, and it is the only accepted kind. */
  lemma LoadAcceptsBib(c: DueCreditCollector, path: string)
    ensures c.Load(Str(path + ".bib")) == Pass
    ensures c.Load(NotAString).Fail?
  {
    Text.EndsWithAppend(path, ".bib");
  }
}

=== FILE: entries.dfy ===
/**
 * Citable entries. The entry class itself (its bibliographic content and
 * how it computes its key) is defined outside the collector; here an entry
 * is a value that carries its key and opaque descriptive content.
 */
module Entries {

  type Key = string

  /** A citable work: `key` is what `get_key()` returns. */
  datatype Entry = Entry(key: Key, content: string)

  /** The first argument of `cite`: an entry object, or the key of one already added. */
  datatype EntryRef = NewEntry(entry: Entry) | ByKey(key: Key)

  /** The key a reference designates once it resolves. */
  function RefKey(ref: EntryRef): Key
  {
    match ref
    case NewEntry(e) => e.key
    case ByKey(k) => k
  }
}

=== FILE: errors.dfy ===
/** The Python exceptions the collector raises, as values. */
module Errors {

  datatype Error =
    | KeyError(key: string)             // dictionary lookup of an unknown key
    | NotImplementedError(message: string)
    | ValueError(message: string)
}

=== FILE: grave.dfy ===
/**
 * `CollectorGrave`: binds a collector to the output handlers named by the
 * DUECREDIT_OUTPUTS setting. The setting is an input here (None when the
 * variable is unset) and handlers are tags; writing them out is not modelled.
 */
module Grave {
  import opened Wrappers
  import opened Errors
  import Text
  import Collector

  datatype Stream = Stdout | Stderr

  /** A `TextOutput` on a stream, or a `PickleOutput` given the grave's raw `fn` argument. */
  datatype Handler = TextOutput(stream: Stream) | PickleOutput(fn: Option<string>)

  /** The setting used when DUECREDIT_OUTPUTS is unset. */
  const DefaultOutputs: string := "stdout"

  /** The file name the grave records when none (or an empty one) is given. */
  const DefaultFile: string := ".duecredit.p"

  predicate IsSinkName(name: string)
  {
    name == "stdout" || name == "stderr" || name == "pickle"
  }

  /** `_get_output_handler(type_, collector, fn)`: the handler for a sink name, or NotImplementedError. */
  function GetOutputHandler(name: string, fn: Option<string>): (r: Result<Handler, Error>)
    ensures r.Success? <==> IsSinkName(name)
    ensures r.Failure? ==> r.error == NotImplementedError("")
    ensures name == "stdout" ==> r == Success(TextOutput(Stdout))
    ensures name == "stderr" ==> r == Success(TextOutput(Stderr))
    ensures name == "pickle" ==> r == Success(PickleOutput(fn))
  {
    if name == "stdout" then Success(TextOutput(Stdout))
    else if name == "stderr" then Success(TextOutput(Stderr))
    else if name == "pickle" then Success(PickleOutput(fn))
    else Failure(NotImplementedError(""))
  }

  /**
   * How a segment of the setting is read: `type_.lower().strip()`. The name
   * has no upper-case ASCII letter and no surrounding whitespace, and it is empty
   * exactly when the segment is all whitespace.
   */
  function Normalize(segment: string): (name: string)
    ensures name == Text.Strip(Text.Lower(segment))
    ensures |name| <= |segment|
    ensures forall k | 0 <= k < |name| :: !('A' <= name[k] <= 'Z')
    ensures name == [] || (!Text.IsSpace(name[0]) && !Text.IsSpace(name[|name| - 1]))
    ensures name == [] <==> forall k | 0 <= k < |segment| :: Text.IsSpace(segment[k])
  {
    NormalizeShape(segment);
    Text.Strip(Text.Lower(segment))
  }

  lemma NormalizeShape(segment: string)
    ensures var name := Text.Strip(Text.Lower(segment));
      && |name| <= |segment|
      && (forall k | 0 <= k < |name| :: !('A' <= name[k] <= 'Z'))
      && (name == [] || (!Text.IsSpace(name[0]) && !Text.IsSpace(name[|name| - 1])))
      && (name == [] <==> forall k | 0 <= k < |segment| :: Text.IsSpace(segment[k]))
  {
    var low := Text.Lower(segment);
    Text.StripShape(low);
    var name, i := Text.Strip(low), Text.LeadingSpace(low);
    forall k | 0 <= k < |name| ensures !('A' <= name[k] <= 'Z') {
      assert name[k] == low[i + k];
    }
    assert forall k | 0 <= k < |segment| :: Text.IsSpace(low[k]) <==> Text.IsSpace(segment[k]);
  }

  /** The segments the comprehension keeps: the non-empty ones (tested before stripping), in order. */
  function NonEmpty(segments: seq<string>): (r: seq<string>)
    ensures |r| <= |segments|
    ensures forall i | 0 <= i < |r| :: r[i] != "" && r[i] in segments
    ensures forall i | 0 <= i < |segments| && segments[i] != "" :: segments[i] in r
    ensures |segments| == 1 ==> r == (if segments[0] == "" then [] else segments)
    decreases |segments|
  {
    if segments == [] then []
    else
      var rest := NonEmpty(segments[1..]);
      assert forall i | 1 <= i < |segments| :: segments[i] == segments[1..][i - 1];
      if segments[0] == "" then rest else [segments[0]] + rest
  }

  /**
   * The comprehension keeps segments in order and with repetitions: the kept
   * segments of `a + b` are those of `a` followed by those of `b`.
   */
  lemma {:induction false} NonEmptyAppend(a: seq<string>, b: seq<string>)
    ensures NonEmpty(a + b) == NonEmpty(a) + NonEmpty(b)
    decreases |a|
  {
    if a == [] {
      assert a + b == b;
    } else {
      assert (a + b)[1..] == a[1..] + b;
      NonEmptyAppend(a[1..], b);
    }
  }

  /** The sink names the comprehension looks up: each kept segment lower-cased and stripped. */
  function SinkNames(segments: seq<string>): (names: seq<string>)
    ensures |names| == |NonEmpty(segments)|
    ensures forall j | 0 <= j < |names| :: names[j] == Normalize(NonEmpty(segments)[j])
  {
    var kept := NonEmpty(segments);
    seq(|kept|, i requires 0 <= i < |kept| => Normalize(kept[i]))
  }

  /**
   * The handlers for a list of sink names, in order: it succeeds exactly
   * when every name is a sink, yielding one handler per name; otherwise it
   * raises NotImplementedError.
   */
  function MakeHandlers(names: seq<string>, fn: Option<string>): (r: Result<seq<Handler>, Error>)
    ensures r.Success? <==> forall i | 0 <= i < |names| :: IsSinkName(names[i])
    ensures r.Failure? ==> r.error == NotImplementedError("")
    ensures r.Success? ==> |r.value| == |names|
    ensures r.Success? ==> forall i | 0 <= i < |names| :: GetOutputHandler(names[i], fn) == Success(r.value[i])
    decreases |names|
  {
    if names == [] then Success([])
    else
      var rest := MakeHandlers(names[1..], fn);
      assert forall i | 1 <= i < |names| :: names[i] == names[1..][i - 1];
      match GetOutputHandler(names[0], fn)
      case Failure(e) => Failure(e)
      case Success(h) =>
        match rest
        case Failure(e) => Failure(e)
        case Success(hs) => Success([h] + hs)
  }

  /** Every kept name is a sink name iff every segment is empty or normalises to a sink name. */
  lemma SinkNamesValid(segments: seq<string>)
    ensures (forall j | 0 <= j < |SinkNames(segments)| :: IsSinkName(SinkNames(segments)[j]))
        <==> (forall i | 0 <= i < |segments| :: segments[i] == "" || IsSinkName(Normalize(segments[i])))
  {
    var kept, names := NonEmpty(segments), SinkNames(segments);
    if forall j | 0 <= j < |names| :: IsSinkName(names[j]) {
      forall i | 0 <= i < |segments| && segments[i] != "" ensures IsSinkName(Normalize(segments[i])) {
        var j :| 0 <= j < |kept| && kept[j] == segments[i];
        assert names[j] == Normalize(kept[j]);
      }
    }
    if forall i | 0 <= i < |segments| :: segments[i] == "" || IsSinkName(Normalize(segments[i])) {
      forall j | 0 <= j < |names| ensures IsSinkName(names[j]) {
        var i :| 0 <= i < |segments| && segments[i] == kept[j];
      }
    }
  }

  /**
   * The list comprehension of `CollectorGrave.__init__` over the split
   * setting: it succeeds exactly when every segment is empty or names a sink
   * once lower-cased and stripped, and then holds one handler per non-empty
   * segment, in order; otherwise it raises NotImplementedError.
   */
  function OutputHandlers(segments: seq<string>, fn: Option<string>): (r: Result<seq<Handler>, Error>)
    ensures r.Success? <==> forall i | 0 <= i < |segments| :: segments[i] == "" || IsSinkName(Normalize(segments[i]))
    ensures r.Failure? ==> r.error == NotImplementedError("")
    ensures r.Success? ==> |r.value| == |NonEmpty(segments)|
    ensures r.Success? ==> forall j | 0 <= j < |r.value| ::
      GetOutputHandler(Normalize(NonEmpty(segments)[j]), fn) == Success(r.value[j])
  {
    SinkNamesValid(segments);
    MakeHandlers(SinkNames(segments), fn)
  }

  /** A constructed grave: the collector, the file name it records, its handlers. */
  datatype Grave = Grave(due: Collector.DueCreditCollector, fn: string, outputs: seq<Handler>)

  /**
   * `CollectorGrave(collector, fn)` with the DUECREDIT_OUTPUTS setting
   * (None when unset): the setting is split on commas and each non-empty
   * segment becomes a handler; one unknown name raises NotImplementedError.
   * `fn or '.duecredit.p'` is recorded, but the handlers get `fn` as given.
   */
  function NewGrave(collector: Collector.DueCreditCollector, fn: Option<string>, setting: Option<string>): (r: Result<Grave, Error>)
    ensures var segments := Text.Split(if setting.Some? then setting.value else DefaultOutputs);
      r.Success? <==> OutputHandlers(segments, fn).Success?
    ensures r.Success? ==> r.value.due == collector
    ensures var segments := Text.Split(if setting.Some? then setting.value else DefaultOutputs);
      r.Success? ==> r.value.outputs == OutputHandlers(segments, fn).value
    ensures r.Success? ==> r.value.fn == (if fn.None? || fn == Some("") then DefaultFile else fn.value)
  {
    var segments := Text.Split(if setting.Some? then setting.value else DefaultOutputs);
    match OutputHandlers(segments, fn)
    case Failure(e) => Failure(e)
    case Success(outputs) =>
      Success(Grave(collector, if fn.None? || fn == Some("") then DefaultFile else fn.value, outputs))
  }

  /**
   * The whole parse of a setting: it is cut at every comma; the grave is
   * built exactly when each piece is empty or names a sink once lower-cased
   * and stripped; its handlers are then those of the non-empty pieces, one
   * each and in order; otherwise construction raises NotImplementedError.
   */
  lemma SettingParse(collector: Collector.DueCreditCollector, fn: Option<string>, setting: string)
    ensures var segments, r := Text.Split(setting), NewGrave(collector, fn, Some(setting));
      && Text.Join(segments) == setting
      && (forall i | 0 <= i < |segments| :: ',' !in segments[i])
      && (r.Success? <==> forall i | 0 <= i < |segments| :: segments[i] == "" || IsSinkName(Normalize(segments[i])))
      && (r.Failure? ==> r == Failure(NotImplementedError("")))
      && (r.Success? ==> |r.value.outputs| == |NonEmpty(segments)|)
      && (r.Success? ==> forall j | 0 <= j < |r.value.outputs| ::
            GetOutputHandler(Normalize(NonEmpty(segments)[j]), fn) == Success(r.value.outputs[j]))
  {
  }

  /** With DUECREDIT_OUTPUTS unset the only handler is a text output on stdout. */
  lemma UnsetMeansStdout(collector: Collector.DueCreditCollector, fn: Option<string>)
    ensures NewGrave(collector, fn, None).Success?
    ensures NewGrave(collector, fn, None).value.outputs == [TextOutput(Stdout)]
  {
    Text.SplitJoin(["stdout"]);
    assert Text.Split(DefaultOutputs) == ["stdout"];
    NormalizeUnchanged("stdout");
    var r := OutputHandlers(["stdout"], fn);
    assert NonEmpty(["stdout"]) == ["stdout"];
    assert |r.value| == 1 && GetOutputHandler("stdout", fn) == Success(r.value[0]);
  }

  /** A name without upper-case letters or surrounding whitespace, such as a sink name, reads as itself. */
  lemma NormalizeUnchanged(name: string)
    requires forall k | 0 <= k < |name| :: !('A' <= name[k] <= 'Z') && !Text.IsSpace(name[k])
    ensures Normalize(name) == name
  {
    Text.LowerUnchanged(name);
    Text.StripUnchanged(name);
  }

  /**
   * Empty segments (",," or a trailing comma) are skipped, but a segment of
   * only whitespace is not empty before stripping and so raises.
   */
  lemma BlankSegmentRaises(collector: Collector.DueCreditCollector, fn: Option<string>, setting: string, i: nat)
    requires var segments := Text.Split(setting); i < |segments| && segments[i] != ""
    requires forall k | 0 <= k < |Text.Split(setting)[i]| :: Text.IsSpace(Text.Split(setting)[i][k])
    ensures NewGrave(collector, fn, Some(setting)) == Failure(NotImplementedError(""))
  {
    assert Normalize(Text.Split(setting)[i]) == "";
  }
}

=== FILE: registry.dfy ===
/**
 * The collector's bookkeeping as values: the entry dictionary, the citation
 * dictionary, and what `add` and `cite` do to them. The classes in module
 * Collector are proved to follow these functions; the properties of the
 * bookkeeping are proved here, once, about the functions.
 */
module Registry {
  import opened Wrappers
  import opened Errors
  import opened Entries

  /** The contents of one Citation object. */
  datatype Record = Record(entry: Entry, use: Option<string>, level: Option<string>, count: nat)

  /** `_entries` and `citations`, both keyed by entry key. */
  datatype State = State(entries: map<Key, Entry>, citations: map<Key, Record>)

  /** What `add` accepts: one entry, or a list whose items are added in order (lists may nest). */
  datatype Addable = Single(entry: Entry) | List(items: seq<Addable>)

  /** One call `cite(ref, use, level)`. */
  datatype Call = Call(ref: EntryRef, use: Option<string>, level: Option<string>)

  /** A collector built with no arguments. */
  const Empty: State := State(map[], map[])

  /** Every entry is stored under its own key. */
  predicate WellKeyed(entries: map<Key, Entry>)
  {
    forall k | k in entries :: entries[k].key == k
  }

  /**
   * The invariant of a collector that started empty: entries sit under their
   * own keys, every citation key is an entry key, every citation wraps an
   * entry with that key, and every citation has been counted at least once.
   */
  predicate Inv(s: State)
  {
    && WellKeyed(s.entries)
    && s.citations.Keys <= s.entries.Keys
    && (forall k | k in s.citations :: s.citations[k].entry.key == k && s.citations[k].count >= 1)
  }

  /** How many times `k` has been cited (0 when it never was). */
  function CountOf(s: State, k: Key): nat
  {
    if k in s.citations then s.citations[k].count else 0
  }

  lemma EmptyInv()
    ensures Inv(Empty) && Empty.entries == map[] && Empty.citations == map[]
  {
  }

  // ---------------------------------------------------------------- add

  /** `add(a)` on the entry dictionary `m`. */
  function AddTo(m: map<Key, Entry>, a: Addable): (r: map<Key, Entry>)
    ensures m.Keys <= r.Keys
    ensures WellKeyed(m) ==> WellKeyed(r)
    decreases a
  {
    match a
    case Single(e) => m[e.key := e]
    case List(items) => AddAllFrom(m, items)
  }

  /** The loop of `add` over a list: each item in order. */
  function AddAllFrom(m: map<Key, Entry>, items: seq<Addable>): (r: map<Key, Entry>)
    ensures m.Keys <= r.Keys
    ensures WellKeyed(m) ==> WellKeyed(r)
    decreases items
  {
    if items == [] then m else AddAllFrom(AddTo(m, items[0]), items[1..])
  }

  /** The entries of `a` in the order `add` stores them. */
  function Flatten(a: Addable): seq<Entry>
    decreases a
  {
    match a
    case Single(e) => [e]
    case List(items) => FlattenAll(items)
  }

  function FlattenAll(items: seq<Addable>): seq<Entry>
    decreases items
  {
    if items == [] then [] else Flatten(items[0]) + FlattenAll(items[1..])
  }

  /** Reference definition: store each entry of a flat list under its key, left to right. */
  function StoreEach(m: map<Key, Entry>, es: seq<Entry>): map<Key, Entry>
    decreases es
  {
    if es == [] then m else StoreEach(m[es[0].key := es[0]], es[1..])
  }

  lemma {:induction false} StoreEachAppend(m: map<Key, Entry>, xs: seq<Entry>, ys: seq<Entry>)
    ensures StoreEach(m, xs + ys) == StoreEach(StoreEach(m, xs), ys)
    decreases xs
  {
    if xs != [] {
      assert (xs + ys)[1..] == xs[1..] + ys;
      StoreEachAppend(m[xs[0].key := xs[0]], xs[1..], ys);
    } else {
      assert xs + ys == ys;
    }
  }

  /** Adding a (nested) list is storing its flattened entries one after another. */
  lemma {:induction false} AddToIsStoreEach(m: map<Key, Entry>, a: Addable)
    ensures AddTo(m, a) == StoreEach(m, Flatten(a))
    decreases a
  {
    match a
    case Single(e) =>
      assert StoreEach(m, [e]) == StoreEach(m[e.key := e], []);
    case List(items) =>
      AddAllFromIsStoreEach(m, items);
  }

  lemma {:induction false} AddAllFromIsStoreEach(m: map<Key, Entry>, items: seq<Addable>)
    ensures AddAllFrom(m, items) == StoreEach(m, FlattenAll(items))
    decreases items
  {
    if items != [] {
      var m1 := AddTo(m, items[0]);
      AddToIsStoreEach(m, items[0]);
      AddAllFromIsStoreEach(m1, items[1..]);
      StoreEachAppend(m, Flatten(items[0]), FlattenAll(items[1..]));
    }
  }

  /**
   * Storing a flat list: a key ends up present exactly when it was present
   * or some entry carries it; the last entry carrying it wins; keys no entry
   * carries keep their old value.
   */
  lemma {:induction false} StoreEachLastWins(m: map<Key, Entry>, es: seq<Entry>, k: Key)
    ensures k in StoreEach(m, es) <==> k in m || exists i :: 0 <= i < |es| && es[i].key == k
    ensures forall i :: 0 <= i < |es| && es[i].key == k && (forall j :: i < j < |es| ==> es[j].key != k)
                        ==> StoreEach(m, es)[k] == es[i]
    ensures (forall i :: 0 <= i < |es| ==> es[i].key != k) && k in m ==> StoreEach(m, es)[k] == m[k]
  {
    StoreEachKeys(m, es, k);
    forall i | 0 <= i < |es| && es[i].key == k && (forall j :: i < j < |es| ==> es[j].key != k)
      ensures StoreEach(m, es)[k] == es[i]
    {
      StoreEachLast(m, es, k, i);
    }
    if (forall i :: 0 <= i < |es| ==> es[i].key != k) && k in m {
      StoreEachUntouched(m, es, k);
    }
  }

  lemma {:induction false} StoreEachKeys(m: map<Key, Entry>, es: seq<Entry>, k: Key)
    ensures k in StoreEach(m, es) <==> k in m || exists i :: 0 <= i < |es| && es[i].key == k
    decreases es
  {
    if es != [] {
      StoreEachKeys(m[es[0].key := es[0]], es[1..], k);
      if k in StoreEach(m, es) && k !in m && es[0].key != k {
        var i :| 0 <= i < |es[1..]| && es[1..][i].key == k;
        assert es[i + 1].key == k;
      }
      if exists i :: 0 <= i < |es| && es[i].key == k {
        var i :| 0 <= i < |es| && es[i].key == k;
        if i > 0 { assert es[1..][i - 1].key == k; }
      }
    }
  }

  lemma {:induction false} StoreEachLast(m: map<Key, Entry>, es: seq<Entry>, k: Key, i: nat)
    requires i < |es| && es[i].key == k
    requires forall j :: i < j < |es| ==> es[j].key != k
    ensures k in StoreEach(m, es) && StoreEach(m, es)[k] == es[i]
    decreases es
  {
    var m1 := m[es[0].key := es[0]];
    if i > 0 {
      assert es[1..][i - 1] == es[i];
      forall j | i - 1 < j < |es[1..]| ensures es[1..][j].key != k { assert es[1..][j] == es[j + 1]; }
      StoreEachLast(m1, es[1..], k, i - 1);
    } else {
      forall j | 0 <= j < |es[1..]| ensures es[1..][j].key != k { assert es[1..][j] == es[j + 1]; }
      StoreEachUntouched(m1, es[1..], k);
    }
  }

  lemma {:induction false} StoreEachUntouched(m: map<Key, Entry>, es: seq<Entry>, k: Key)
    requires k in m
    requires forall i :: 0 <= i < |es| ==> es[i].key != k
    ensures k in StoreEach(m, es) && StoreEach(m, es)[k] == m[k]
    decreases es
  {
    if es != [] {
      forall j | 0 <= j < |es[1..]| ensures es[1..][j].key != k { assert es[1..][j] == es[j + 1]; }
      StoreEachUntouched(m[es[0].key := es[0]], es[1..], k);
    }
  }

  /** `add` of a single entry: `entries[key(e)] := e`, every other key unchanged. */
  lemma AddSingle(m: map<Key, Entry>, e: Entry, k: Key)
    ensures e.key in AddTo(m, Single(e)) && AddTo(m, Single(e))[e.key] == e
    ensures k != e.key ==> (k in AddTo(m, Single(e)) <==> k in m)
    ensures k != e.key && k in m ==> AddTo(m, Single(e))[k] == m[k]
  {
  }

  // ---------------------------------------------------------------- cite

  /** Which entry `cite` means: an entry object is itself; a bare key is looked up. */
  function Resolve(entries: map<Key, Entry>, ref: EntryRef): (r: Result<Entry, Error>)
    ensures r.Failure? <==> ref.ByKey? && ref.key !in entries
    ensures r.Failure? ==> r.error == KeyError(ref.key)
    ensures r.Success? && WellKeyed(entries) ==> r.value.key == RefKey(ref)
  {
    match ref
    case NewEntry(e) => Success(e)
    case ByKey(k) => if k in entries then Success(entries[k]) else Failure(KeyError(k))
  }

  /**
   * `cite(ref, use, level)`: register an entry object, find or create the
   * citation under the entry's key (count 0 when created), count it once.
   */
  function Cite(s: State, c: Call): (r: Result<State, Error>)
    ensures r.Failure? <==> c.ref.ByKey? && c.ref.key !in s.entries
    ensures r.Failure? ==> r.error == KeyError(c.ref.key)
  {
    match Resolve(s.entries, c.ref)
    case Failure(e) => Failure(e)
    case Success(entry) =>
      var entries := if c.ref.NewEntry? then AddTo(s.entries, Single(entry)) else s.entries;
      Success(State(entries, Counted(s.citations, entry, c.use, c.level)))
  }

  /**
   * The second half of `cite`: the citation under the entry's key, created
   * with count 0 when there is none, counted once; other keys keep theirs.
   */
  function Counted(citations: map<Key, Record>, entry: Entry, use: Option<string>, level: Option<string>): (r: map<Key, Record>)
    ensures r.Keys == citations.Keys + {entry.key}
    ensures entry.key in citations ==> r[entry.key] == citations[entry.key].(count := citations[entry.key].count + 1)
    ensures entry.key !in citations ==> r[entry.key] == Record(entry, use, level, 1)
    ensures forall j | j in citations && j != entry.key :: r[j] == citations[j]
  {
    var k := entry.key;
    var citation := if k in citations then citations[k] else Record(entry, use, level, 0);
    citations[k := citation.(count := citation.count + 1)]
  }

  /** Counting is storing the found or created citation, then storing it counted once more. */
  lemma CountedSteps(citations: map<Key, Record>, entry: Entry, use: Option<string>, level: Option<string>)
    ensures var k := entry.key;
      var r0 := if k in citations then citations[k] else Record(entry, use, level, 0);
      citations[k := r0][k := r0.(count := r0.count + 1)] == Counted(citations, entry, use, level)
  {
  }

  /** Counting a registered entry keeps the invariant. */
  lemma CountedInv(s: State, entry: Entry, use: Option<string>, level: Option<string>)
    requires Inv(s)
    requires entry.key in s.entries && s.entries[entry.key] == entry
    ensures Inv(State(s.entries, Counted(s.citations, entry, use, level)))
  {
  }

  /**
   * What one successful `cite` does to a collector that keeps the invariant:
   * the entry object (if any) is registered, the citation under its key is
   * created with the call's use and level or, when it exists, keeps its
   * entry, use and level; its count goes up by one; other citations are
   * untouched; the invariant still holds.
   */
  lemma CiteEffect(s: State, c: Call)
    requires Inv(s)
    requires c.ref.NewEntry? || c.ref.key in s.entries
    ensures Cite(s, c).Success?
    ensures var s', k := Cite(s, c).value, RefKey(c.ref);
      && s'.entries == (if c.ref.NewEntry? then s.entries[k := c.ref.entry] else s.entries)
      && s'.citations.Keys == s.citations.Keys + {k}
      && s'.citations[k].count == CountOf(s, k) + 1
      && (k in s.citations ==> s'.citations[k] == s.citations[k].(count := s.citations[k].count + 1))
      && (k !in s.citations ==> s'.citations[k] == Record(s'.entries[k], c.use, c.level, 1))
      && (forall j | j in s.citations && j != k :: s'.citations[j] == s.citations[j])
      && Inv(s')
  {
  }

  /** A failed `cite` (unknown bare key) leaves the citations as they were. */
  lemma CiteUnknownKey(s: State, k: Key, use: Option<string>, level: Option<string>)
    requires k !in s.entries
    ensures Cite(s, Call(ByKey(k), use, level)) == Failure(KeyError(k))
  {
  }

  /** `add` keeps the invariant and leaves the citations alone. */
  lemma AddPreservesInv(s: State, a: Addable)
    requires Inv(s)
    ensures Inv(State(AddTo(s.entries, a), s.citations))
  {
  }

  /** Several calls in order; the first one that raises stops the sequence. */
  function Run(s: State, calls: seq<Call>): (r: Result<State, Error>)
    decreases calls
  {
    if calls == [] then Success(s)
    else match Cite(s, calls[0])
      case Failure(e) => Failure(e)
      case Success(s1) => Run(s1, calls[1..])
  }

  /**
   * Calls that all designate the key `k` (a bare `k` or an entry object with
   * key `k`) succeed once `k` can be resolved; afterwards the count is the old
   * count plus the number of calls; the citation's use and level are those of
   * the first call when it was created by these calls, and unchanged when it
   * already existed; other citations are untouched.
   */
  lemma {:induction false} RunCounts(s: State, calls: seq<Call>, k: Key)
    requires Inv(s)
    requires forall i | 0 <= i < |calls| :: RefKey(calls[i].ref) == k
    requires k in s.entries || (|calls| > 0 && calls[0].ref.NewEntry?)
    ensures Run(s, calls).Success?
    ensures var s' := Run(s, calls).value;
      && Inv(s')
      && CountOf(s', k) == CountOf(s, k) + |calls|
      && s.citations.Keys <= s'.citations.Keys
      && (k in s.citations ==>
            && s'.citations[k].use == s.citations[k].use
            && s'.citations[k].level == s.citations[k].level
            && s'.citations[k].entry == s.citations[k].entry)
      && (k !in s.citations && |calls| > 0 ==>
            && s'.citations[k].use == calls[0].use
            && s'.citations[k].level == calls[0].level)
      && (forall j | j != k :: CountOf(s', j) == CountOf(s, j))
      && (forall j | j in s.citations && j != k :: s'.citations[j] == s.citations[j])
    decreases calls
  {
    if calls != [] {
      CiteEffect(s, calls[0]);
      var s1 := Cite(s, calls[0]).value;
      RunCounts(s1, calls[1..], k);
    }
  }

  /** Counts never go down: one `cite` raises the count of one key and no other. */
  lemma CiteMonotone(s: State, c: Call, j: Key)
    requires Inv(s)
    requires Cite(s, c).Success?
    ensures CountOf(s, j) <= CountOf(Cite(s, c).value, j)
  {
    CiteEffect(s, c);
  }

  /** The same call `n` times, as a decorated function called `n` times makes. */
  function Repeat(c: Call, n: nat): (calls: seq<Call>)
    ensures |calls| == n && forall i | 0 <= i < n :: calls[i] == c
  {
    seq(n, i => c)
  }

  /**
   * Calling the same `cite` `n` times on a resolvable reference counts it
   * `n` more times; a key never cited before ends with count `n`.
   */
  lemma RepeatedCiteCount(s: State, c: Call, n: nat)
    requires Inv(s)
    requires c.ref.NewEntry? || c.ref.key in s.entries
    ensures Run(s, Repeat(c, n)).Success?
    ensures CountOf(Run(s, Repeat(c, n)).value, RefKey(c.ref)) == CountOf(s, RefKey(c.ref)) + n
    ensures RefKey(c.ref) !in s.citations ==> CountOf(Run(s, Repeat(c, n)).value, RefKey(c.ref)) == n
  {
    var k := RefKey(c.ref);
    if c.ref.ByKey? || n > 0 {
      RunCounts(s, Repeat(c, n), k);
    }
  }
}

=== FILE: text.dfy ===
/**
 * The handful of Python string operations the collector uses:
 * `str.split(',')`, `str.lower()`, `str.strip()`, `str.endswith()` and the
 * decimal rendering of `'{0:d}'.format(n)`.
 */
module Text {

  // ---------------------------------------------------------------- split

  /** `','.join(pieces)`. */
  function Join(pieces: seq<string>): string
    decreases |pieces|
  {
    if |pieces| == 0 then ""
    else if |pieces| == 1 then pieces[0]
    else pieces[0] + [','] + Join(pieces[1..])
  }

  lemma JoinCons(x: string, rest: seq<string>)
    requires |rest| >= 1
    ensures Join([x] + rest) == x + [','] + Join(rest)
  {
    assert ([x] + rest)[1..] == rest;
  }

  /** The index of the first comma of `s`. */
  function FirstComma(s: string): (i: nat)
    requires ',' in s
    ensures i < |s| && s[i] == ',' && ',' !in s[..i]
  {
    if s[0] == ',' then 0
    else
      assert ',' in s[1..] by { var j :| 0 <= j < |s| && s[j] == ','; assert s[1..][j - 1] == ','; }
      var i := FirstComma(s[1..]) + 1;
      assert s[..i] == [s[0]] + s[1..][..i - 1];
      i
  }

  /** `s.split(',')`: the comma-free pieces between commas, empty pieces included; joining them gives `s` back. */
  function Split(s: string): (r: seq<string>)
    ensures |r| >= 1
    ensures forall i | 0 <= i < |r| :: ',' !in r[i]
    ensures Join(r) == s
    decreases |s|
  {
    if ',' !in s then [s]
    else
      var i := FirstComma(s);
      var rest := Split(s[i + 1..]);
      assert Join([s[..i]] + rest) == s by {
        JoinCons(s[..i], rest);
        assert s == s[..i] + [','] + s[i + 1..];
      }
      [s[..i]] + rest
  }

  /** Splitting is the inverse of joining comma-free pieces. */
  lemma {:induction false} SplitJoin(pieces: seq<string>)
    requires |pieces| >= 1
    requires forall i | 0 <= i < |pieces| :: ',' !in pieces[i]
    ensures Split(Join(pieces)) == pieces
    decreases |pieces|
  {
    if |pieces| > 1 {
      var h, rest := pieces[0], pieces[1..];
      var t := Join(rest);
      var s := h + [','] + t;
      assert Join(pieces) == s;
      assert s[|h|] == ',' && s[..|h|] == h && s[|h| + 1..] == t;
      assert FirstComma(s) == |h|;
      SplitJoin(rest);
      assert [h] + rest == pieces;
    }
  }

  // ---------------------------------------------------------------- lower, strip

  /** `str.lower()` on one character (ASCII letters). */
  function LowerChar(c: char): char
  {
    if 'A' <= c <= 'Z' then (c as int - 'A' as int + 'a' as int) as char else c
  }

  /** `s.lower()`. */
  function Lower(s: string): (r: string)
    ensures |r| == |s|
    ensures forall i | 0 <= i < |s| :: r[i] == LowerChar(s[i])
    ensures forall i | 0 <= i < |r| :: !('A' <= r[i] <= 'Z')
  {
    seq(|s|, i requires 0 <= i < |s| => LowerChar(s[i]))
  }

  /** Lower-casing leaves a string without upper-case letters as it is. */
  lemma LowerUnchanged(s: string)
    requires forall i | 0 <= i < |s| :: !('A' <= s[i] <= 'Z')
    ensures Lower(s) == s
  {
  }

  /** `c.isspace()`: the characters Python's `str.strip()` removes by default. */
  predicate IsSpace(c: char)
  {
    || '\U{9}' <= c <= '\U{D}'
    || '\U{1C}' <= c <= '\U{20}'
    || c == '\U{85}' || c == '\U{A0}' || c == '\U{1680}'
    || '\U{2000}' <= c <= '\U{200A}'
    || c == '\U{2028}' || c == '\U{2029}' || c == '\U{202F}' || c == '\U{205F}' || c == '\U{3000}'
  }

  /** How many whitespace characters `s` starts with. */
  function LeadingSpace(s: string): (n: nat)
    ensures n <= |s|
    ensures forall k | 0 <= k < n :: IsSpace(s[k])
    ensures n < |s| ==> !IsSpace(s[n])
    decreases |s|
  {
    if s != [] && IsSpace(s[0]) then 1 + LeadingSpace(s[1..]) else 0
  }

  /** How many whitespace characters `s` ends with. */
  function TrailingSpace(s: string): (n: nat)
    ensures n <= |s|
    ensures forall k | |s| - n <= k < |s| :: IsSpace(s[k])
    ensures n < |s| ==> !IsSpace(s[|s| - n - 1])
    decreases |s|
  {
    if s != [] && IsSpace(s[|s| - 1]) then 1 + TrailingSpace(s[..|s| - 1]) else 0
  }

  /** `s.strip()`: `s` without its leading and trailing whitespace (see StripShape). */
  function Strip(s: string): (r: string)
    ensures LeadingSpace(s) + |r| <= |s|
    ensures forall k | 0 <= k < |r| :: r[k] == s[LeadingSpace(s) + k]
  {
    var t := s[LeadingSpace(s)..];
    t[..|t| - TrailingSpace(t)]
  }

  /**
   * `s.strip()` is a slice of `s` with only whitespace cut on either side;
   * it neither starts nor ends with whitespace, and it is empty exactly when
   * `s` is all whitespace.
   */
  lemma {:induction false} StripShape(s: string)
    ensures var r, i := Strip(s), LeadingSpace(s);
      && i + |r| <= |s| && r == s[i..i + |r|]
      && (forall k | 0 <= k < i :: IsSpace(s[k]))
      && (forall k | i + |r| <= k < |s| :: IsSpace(s[k]))
      && (r == [] || (!IsSpace(r[0]) && !IsSpace(r[|r| - 1])))
      && (r == [] <==> forall k | 0 <= k < |s| :: IsSpace(s[k]))
  {
    var i := LeadingSpace(s);
    var t := s[i..];
    var n := TrailingSpace(t);
    var r := t[..|t| - n];
    assert r == s[i..i + |r|];
    forall k | i + |r| <= k < |s| ensures IsSpace(s[k]) {
      assert s[k] == t[k - i];
    }
    if r != [] {
      assert r[0] == t[0];
      assert r[|r| - 1] == t[|t| - n - 1];
    }
  }

  /** Stripping leaves a string that neither starts nor ends with whitespace as it is. */
  lemma StripUnchanged(s: string)
    requires s == [] || (!IsSpace(s[0]) && !IsSpace(s[|s| - 1]))
    ensures Strip(s) == s
  {
    assert LeadingSpace(s) == 0;
    assert s[0..] == s;
    assert TrailingSpace(s) == 0;
  }

  // ---------------------------------------------------------------- endswith

  /** `s.endswith(suffix)`. */
  predicate EndsWith(s: string, suffix: string): (b: bool)
    ensures b ==> |suffix| <= |s| && s == s[..|s| - |suffix|] + suffix
  {
    |suffix| <= |s| && s[|s| - |suffix|..] == suffix
  }

  lemma EndsWithAppend(p: string, suffix: string)
    ensures EndsWith(p + suffix, suffix)
  {
    assert (p + suffix)[|p|..] == suffix;
  }

  // ---------------------------------------------------------------- decimal

  function DigitChar(d: nat): char
    requires d < 10
  {
    ('0' as int + d) as char
  }

  predicate IsDigit(c: char)
  {
    '0' <= c <= '9'
  }

  /** `'{0:d}'.format(n)`: decimal digits, most significant first, no leading zero. */
  function Decimal(n: nat): (r: string)
    ensures |r| >= 1
    ensures forall i | 0 <= i < |r| :: IsDigit(r[i])
    ensures |r| > 1 ==> r[0] != '0'
    decreases n
  {
    if n < 10 then [DigitChar(n)] else Decimal(n / 10) + [DigitChar(n % 10)]
  }

  /** Reading a string of decimal digits back as a number. */
  function ParseDecimal(s: string): nat
    requires forall i | 0 <= i < |s| :: IsDigit(s[i])
    decreases |s|
  {
    if s == [] then 0
    else
      assert IsDigit(s[|s| - 1]);
      10 * ParseDecimal(s[..|s| - 1]) + (s[|s| - 1] as int - '0' as int)
  }

  /** The rendering is read back as the same number: two sizes never print alike. */
  lemma {:induction false} DecimalRoundTrip(n: nat)
    ensures ParseDecimal(Decimal(n)) == n
    decreases n
  {
    if n >= 10 {
      var d := Decimal(n);
      assert d[..|d| - 1] == Decimal(n / 10);
      DecimalRoundTrip(n / 10);
    }
  }
}

=== FILE: wrappers.dfy ===
/** Failure-carrying result types used throughout the model. */
module Wrappers {

  datatype Option<+T> = None | Some(value: T)

  /** A value or the exception that was raised instead. */
  datatype Result<+T, +E> = Success(value: T) | Failure(error: E)

  /** An operation that returns nothing (Python's `None`) or raises. */
  datatype Outcome<+E> = Pass | Fail(error: E)
}
